=== FILE: README.md ===
# PatMakr in Dafny

PatMakr builds an integer sequence with planted, repeated sub-patterns. It
is meant as controllable test input for pattern-discovery algorithms. The
sequence has `sequenceLength + 1` cells and starts as all background (0).
The generator works in three steps:

1. It plans the levels. Each level is one pattern length:
   - `.Lowest` gives 3, 30, 300, ….
   - `.Highest` gives `L*3/10`, `L*3/100`, …, listed in ascending order.
2. It parameterises each level, giving the number of distinct patterns and
   the number of occurrences per pattern.
3. It injects each level with `generateLevel`, in ascending order of length.
   - The first occurrence of a pattern gives every background cell of its
     window a fresh symbol, taken from a counter that starts at 0 in every call.
   - That window is then captured as the pattern's template.
   - Every later occurrence overwrites its own window with the template.

The project has three modules, one file each:

- `planning.dfy` (module `Planning`): the `Origin` and `LevelType` enums.
  It holds the two planning loops as methods (`PlanLowest`, `PlanHighest`).
  Each is proved equal to a specification function, and the shape of each
  plan is proved as a lemma. The parameterisation is a function
  (`Parameterize`).
- `injection.dfy` (module `Injection`): `generateLevel` as a method.
  - It copies the input into an `array` and updates it in place.
    `FillWindow` does the first-occurrence loop and `StampWindow` does
    `replaceSubrange`.
  - It is proved equal to a specification over sequences: `FillBackground`,
    `Stamp`, `StampOccurrences`, `PlacePattern`, `PlacePatterns` and `Level`.
  - Lemmas state what the specification promises.
- `generator.dfy` (module `Generator`): `Run`, which folds `generateLevel`
  over the planned levels.
  - Its result is an `Outcome`: `Completed(sequence)`, or `Trapped(level)`
    when a level's range `1...nbOccs` is empty, which traps in Swift.

The random source (`arc4random_uniform`) is replaced by draws that the
caller supplies. Per level, `draws[p][i]` is the start offset of occurrence
`i+1` of pattern `p+1`. A run asks only that the draws come one per pattern
and occurrence and that each is a value the random source can return:
below `sequenceLength - patternLength`, or 0 when that bound is 0
(`ValidDraw`). That every drawn window then lies inside the L+1 cells of
the sequence, and never reaches its last cell, is proved
(`LevelDrawsFitBuffer`). `generateLevel` on its own takes the buffer
separately from L, and Swift traps when any of its demands fails. So, when
nbPatterns > 0, `GenerateLevel` also asks for:
- windows that fit its input;
- 1 ≤ patternLength, since otherwise the upper bound of
  `start...start+patternLength-1` is below its lower bound, and Swift traps
  when it forms that range;
- patternLength ≤ sequenceLength, since otherwise `UInt32` of a negative
  bound traps;
- nbOccs ≥ 1, since otherwise `1...nbOccs` is empty.

`Run` meets all of these for every planned level except nbOccs = 0, which
it reports as `Trapped`.

The model keeps these quirks of the code:

- The `break` inside the parameterisation `switch` leaves only the `switch`,
  so every planned level still reaches `generateLevel`:
  - a level with `nbOccs == 1` writes one unrepeated window (`LonePatternLevel`);
  - a level with `nbOccs == 0` traps (`TrapsExactly`, `RunOutcomeSpec`).
  The model has no "skip" outcome.
- The symbol counter is local to each `generateLevel` call and restarts at
  0, so symbols from different levels can coincide (`LonePatternLevel`,
  `LevelSymbols`). No counter is carried across levels.
- `generateLevel` returns only the sequence, not the counter.
- `.Lowest` keeps a length equal to the sequence length because its stop
  test is `pl > sequenceLength`. With L = 30 the plan is [3, 30], and with
  one pattern many times the run traps at the second level
  (`LowestThirtyTraps`). So a planned length is not always below the
  sequence length. It is always below it for `.Highest` (`HighestPlanShape`),
  and such runs never trap (`HighestRunCompletes`).
- The comment at main.swift:15 says that with an unbounded number of levels
  the origin makes no difference. That holds only for some lengths. It holds
  for the preset L = 1000, where both origins plan [3, 30, 300]
  (`OriginUnusedAtPreset`). For L = 500, `.Lowest` plans [3, 30, 300] and
  `.Highest` plans [1, 15, 150] (`OriginMattersAtFiveHundred`).

## Model

| member | source | states |
|---|---|---|
| `Planning.LowestFrom` | main.swift:95-101 | reference definition of the `.Lowest` loop from a candidate pl with a number of rounds left: no round left or pl > L gives nothing, otherwise pl followed by the lengths from 10·pl |
| `Planning.LowestPlan` | main.swift:95-101 | the `.Lowest` plan: the lengths from candidate 3 with nbLevels rounds |
| `Planning.PlanLowest` | main.swift:94-102 | the `.Lowest` loop (append, multiply by 10, stop when the candidate exceeds L or after nbLevels rounds) returns exactly `LowestPlan` |
| `Planning.LowestPlanShape` | main.swift:94-102 | entry k of the `.Lowest` plan is 3·10^k (so each is 10× the previous and the list is strictly ascending), every entry is ≤ L, there are at most nbLevels entries, and the list ends early only when the next candidate exceeds L |
| `Planning.LowestPlanReachesLength` | main.swift:96-101 | with L = 30 and at least two levels the `.Lowest` plan is [3, 30]: a pattern as long as the sequence is planned |
| `Planning.HighestFrom` | main.swift:104-111 | reference definition of the `.Highest` loop from a candidate pl with a number of rounds left: no round left or pl = 0 gives nothing, otherwise the lengths from pl/10 followed by pl |
| `Planning.HighestPlan` | main.swift:104-111 | the `.Highest` plan: the lengths from candidate L*3/10 with nbLevels rounds |
| `Planning.PlanHighest` | main.swift:103-111 | the `.Highest` loop (insert at the front, divide by 10, stop at 0 or after nbLevels rounds) returns exactly `HighestPlan` |
| `Planning.HighestFromShape` | main.swift:106-110 | from a candidate pl, the list has positive entries ≤ pl, ends with pl, each entry is the next divided by 10, is strictly ascending, has at most `rounds` entries, stops early only when the candidates reach 0, and is empty exactly when no round is left or pl is 0 |
| `Planning.HighestPlanShape` | main.swift:103-111 | the `.Highest` plan has positive entries below L, is strictly ascending, ends with L*3/10, each entry is the next divided by 10, has at most nbLevels entries, stops early only when the next candidate would be 0 (for an empty plan: only when L*3/10 is 0), and is empty exactly when nbLevels is 0 or L*3/10 is 0 |
| `Planning.Plan` | main.swift:92-112 | for either origin, the planned lengths are between 1 and L, strictly ascending, and at most nbLevels many |
| `Planning.OriginUnusedAtPreset` | main.swift:15 | with L = 1000 and at least three levels, both origins plan [3, 30, 300] |
| `Planning.OriginMattersAtFiveHundred` | main.swift:15 | with L = 500 and at least three levels, `.Lowest` plans [3, 30, 300] and `.Highest` plans [1, 15, 150], so the two plans differ |
| `Planning.TwoLevelsOfThousand` | main.swift:16-17 | with L = 1000 and two levels, `.Lowest` plans [3, 30] and `.Highest` plans [30, 300] |
| `Planning.Parameterize` | main.swift:117-130 | reference definition of the parameterisation: one pattern many times gives (1, L*2/3/pl), many patterns twice gives (L/pl/3, 2), with Swift's `/` on non-negative operands |
| `Planning.ParameterizeSpec` | main.swift:115-130 | one pattern many times: one pattern, and nbOccs is the largest count with nbOccs·pl ≤ L*2/3. Many patterns twice: two occurrences, and nbPatterns is the largest count with nbPatterns·3·pl ≤ L. The `break` changes nothing |
| `Planning.LevelTraps` | main.swift:63 | a level traps when it has patterns but its occurrence count is below 1, so that `1...nbOccs` has its upper bound below its lower bound |
| `Planning.TrapsExactly` | main.swift:117-131 | a level has patterns but no occurrence (and so traps at `1...nbOccs`, main.swift:63) exactly when it is one-pattern-many-times and pl > L*2/3 |
| `Planning.HighestNeverTraps` | main.swift:103-131 | no level of a `.Highest` plan traps, for either level type |
| `Planning.LevelCoverage` | main.swift:117-130 | the occurrences of a level cover at most L*2/3 cells (counting overlaps) |
| `Injection.ValidDraw` | main.swift:64 | a start `arc4random_uniform(UInt32(L - pl))` can return: below L - pl, or 0 when that bound is 0 |
| `Injection.FillBackground` | main.swift:65-71 | the first-occurrence pass keeps the buffer's length |
| `Injection.FillBackgroundAt` | main.swift:65-71 | exactly what the pass writes: the m-th background cell of the window gets counter+m, other cells keep their value, and the counter grows by the number of background cells visited |
| `Injection.FirstOccurrenceFillsWindow` | main.swift:65-71 | after the first occurrence no window cell is background; symbol cells and cells outside the window are untouched; the counter grows by exactly the window's number of background cells (≤ pl); the new symbols lie above the old counter and increase in write order, so they are pairwise distinct |
| `Injection.TemplateHasNoBackground` | main.swift:72 | the captured template has length pl and no background cell, and keeps each symbol the window already held |
| `Injection.Stamp` | main.swift:74 | `replaceSubrange` keeps the length, makes the window equal the template, and leaves every cell outside it unchanged |
| `Injection.StampOccurrences` | main.swift:73-75 | stamping later occurrences keeps the buffer's length |
| `Injection.StampOccurrencesLatest` | main.swift:73-75 | after occurrence n ≥ 2 is stamped, its window holds the template |
| `Injection.StampOccurrencesUntouched` | main.swift:63-76 | a cell that none of the stamped windows of occurrences 2..n covers keeps its value |
| `Injection.PlacePattern` | main.swift:62-76 | placing one pattern (fill, capture, stamp) keeps the buffer's length |
| `Injection.PlacePatterns` | main.swift:61-77 | placing the first p patterns keeps the buffer's length |
| `Injection.ValidDrawFits` | main.swift:64-74 | a start the random source can return for a pattern of length 1 ≤ pl ≤ L puts the whole window before cell L |
| `Injection.LevelDrawsFitBuffer` | main.swift:63-89 | draws that are values the random source can return keep every window inside the L+1 cells `Run` allocates (none reaches the last cell), so they meet `generateLevel`'s demands on that buffer |
| `Injection.PlacePatternCounter` | main.swift:60-70 | the counter after p patterns is the counter after p-1 patterns plus the number of background cells in pattern p's first window |
| `Injection.PatternSymbolAt` | main.swift:60-70 | pattern q's first pass gives the m-th background cell of its window the symbol counter+m, where counter is what the patterns before it left, so the symbols of a call are 1, 2, 3, … in write order |
| `Injection.PlacePatternsCounterGrows` | main.swift:60-70 | the counter never decreases from one pattern to a later one |
| `Injection.SymbolsIncreaseAcrossPatterns` | main.swift:60-72 | every symbol pattern q1's first pass writes is below every symbol a later pattern q2's first pass writes, so symbols of different patterns of one call are distinct |
| `Injection.Level` | main.swift:56-81 | `generateLevel` returns a sequence as long as its input |
| `Injection.StampOccurrencesSymbols` | main.swift:72-75 | stamping a template built from input values and symbols 1..a keeps every cell within those values |
| `Injection.PlacePatternSymbols` | main.swift:62-76 | one pattern raises the counter by at most pl, and every cell stays an input value or a symbol 1..counter |
| `Injection.PlacePatternsSymbols` | main.swift:60-77 | from a counter of 0, p patterns allocate at most p·pl symbols, and every cell is an input value or one of those symbols |
| `Injection.LevelSymbols` | main.swift:56-81 | every output cell of `generateLevel` is an input value or a symbol in 1..nbPatterns·patternLength, because the counter restarts at 0 |
| `Injection.LevelNonNegative` | main.swift:56-81 | `generateLevel` keeps a non-negative buffer non-negative |
| `Injection.LonePatternLevel` | main.swift:59-76 | a level with one pattern and one occurrence is not skipped: its window loses all background cells, nothing else changes, and a background first cell gets symbol 1 |
| `Injection.FillWindow` | main.swift:66-71 | the in-place first-occurrence loop leaves the array and counter equal to `FillBackground` of the old contents |
| `Injection.FirstOccurrence` | main.swift:65-72 | the `i == 1` branch (fill, then capture) leaves the array and counter equal to `FillBackground` of the old contents and returns that window as the template |
| `Injection.StampWindow` | main.swift:74 | the in-place `replaceSubrange` leaves the array equal to `Stamp` of the old contents |
| `Injection.PlaceOnePattern` | main.swift:62-76 | the in-place occurrence loop of one pattern leaves the array and counter equal to `PlacePattern` of the old state |
| `Injection.PlacePatternsInPlace` | main.swift:60-77 | the in-place pattern loop, with a counter starting at 0, leaves the array equal to `PlacePatterns` of the old contents |
| `Injection.GenerateLevel` | main.swift:56-81 | `generateLevel` returns `Level` of its arguments: same length as the input, and the input itself when nbPatterns ≤ 0 |
| `Generator.RunFrom` | main.swift:89-132 | reference definition of the level loop from level k on: after the last level the buffer is the result; a level with patterns but no occurrence ends the run as `Trapped(k)`; otherwise the level is injected and the loop goes on |
| `Generator.RunOutcome` | main.swift:84-135 | a run starts the level loop at level 0 from L+1 background cells |
| `Generator.RunFromShape` | main.swift:89-134 | from a buffer of L+1 non-negative cells, a completed run returns L+1 non-negative cells |
| `Generator.RunFromTraps` | main.swift:115-132 | the remaining levels complete exactly when none of them has patterns but no occurrence |
| `Generator.RunFromFirstTrap` | main.swift:115-132 | when the remaining levels trap, they trap at the first level that has patterns but no occurrence |
| `Generator.RunOutcomeSpec` | main.swift:84-135 | a completed run returns L+1 non-negative cells; a run traps exactly when some planned level has patterns but no occurrence, and then at the first such level |
| `Generator.HighestRunCompletes` | main.swift:103-131 | a run with origin `.Highest` always completes |
| `Generator.LowestThirtyTraps` | main.swift:94-131 | with L = 30, `.Lowest`, one pattern many times and at least two levels: the plan is [3, 30], the first level plants 1 pattern 6 times, and the run traps at level 1 |
| `Generator.Run` | main.swift:84-135 | `Run` (plan by loops, then one `generateLevel` per level, reassigning the sequence) returns `RunOutcome`, and a completed run has L+1 cells |

## Left out

- `defineSpecification` (main.swift:32-52) hard-codes a preset and picks a figure configuration. It is modelled only as the `Config` value passed to `Run`.
- `arc4random_uniform` is an OS randomness call. Its results are caller-supplied draws. Uniformity and any other statistical property are not modelled.
- `import Foundation` and the top-level `Run()` call do no I/O. The result is neither printed nor stored.
- Swift's 64-bit `Int` overflow traps are not modelled, and neither is the `UInt32` conversion trap for a bound of 2^32 or more. Integers are unbounded. The conversion `UInt32(sequenceLength - patternLength)` (main.swift:64) traps first, once L - pl reaches 2^32, so from L of about 4.3·10^9. The first `Int` overflow is `pl * 10` in the `.Lowest` loop (main.swift:101), once 3·10^18 has been planned (L ≥ 3·10^18 and nbLevels ≥ 19). `sequenceLength * 3` (main.swift:104) overflows above L ≈ 3.07·10^18, `sequenceLength * 2` (main.swift:120) above L ≈ 4.6·10^18, and `sequenceLength + 1` (main.swift:89) last.
- `ConfigOk` requires nbLevels ≥ 1. With nbLevels < 1 the planning loops' range `1...param.nbLevels` (main.swift:96 and 105) traps before any level is planned; that trap is not modelled as an outcome.
- Negative sequence lengths are excluded by `ConfigOk`. With L = -1 main.swift returns an empty sequence. Below that, the buffer allocation traps.
- Determinism is not stated as a lemma. `Run` is a function of its configuration and draws, which already makes it deterministic.

=== FILE: generator.dfy ===
/**
 * The generator's main routine (`Run`): plan the levels, then, level by
 * level in ascending pattern length, compute the level's parameters and
 * inject its patterns into the sequence, which starts as L+1 background
 * cells. The `break` in the parameterisation leaves only the `switch`, so
 * every planned level reaches `generateLevel`; a level whose occurrence
 * count is 0 makes the range `1...nbOccs` trap, which ends the run.
 */
module Generator {
  import opened Planning
  import opened Injection

  /** The configuration `defineSpecification` supplies. */
  datatype Config = Config(nbLevels: int, from: Origin, levelType: LevelType, sequenceLength: int)

  /** How a run ends: with the finished sequence, or trapped at a level. */
  datatype Outcome = Completed(sequence: seq<int>) | Trapped(level: nat)

  /**
   * `1...nbLevels` needs nbLevels >= 1; the sequence length is taken to be
   * non-negative.
   */
  predicate ConfigOk(cfg: Config)
  {
    cfg.sequenceLength >= 0 && cfg.nbLevels >= 1
  }

  /** The planned pattern lengths of a run. */
  function Levels(cfg: Config): seq<int>
    requires ConfigOk(cfg)
  {
    Plan(cfg.sequenceLength, cfg.nbLevels, cfg.from)
  }

  /** The parameters of level k of a run. */
  function ParamsAt(cfg: Config, k: nat): LevelParams
    requires ConfigOk(cfg) && k < |Levels(cfg)|
  {
    Parameterize(cfg.sequenceLength, Levels(cfg)[k], cfg.levelType)
  }

  /**
   * The draws of level k: one per pattern and occurrence, each a value the
   * random source can return, and nothing about the buffer (that every
   * window fits the L+1 cells is `LevelDrawsFitBuffer`). A level that traps
   * draws nothing.
   */
  predicate LevelDrawsOk(cfg: Config, levelDraws: seq<seq<nat>>, k: nat)
    requires ConfigOk(cfg) && k < |Levels(cfg)|
  {
    if LevelTraps(ParamsAt(cfg, k)) then levelDraws == []
    else LevelDraws(cfg.sequenceLength, ParamsAt(cfg, k).nbPatterns, Levels(cfg)[k],
                    ParamsAt(cfg, k).nbOccs, levelDraws)
  }

  /** The random draws of a run: `draws[k]` holds those of level k. */
  predicate RunPre(cfg: Config, draws: seq<seq<seq<nat>>>)
  {
    && ConfigOk(cfg)
    && |draws| == |Levels(cfg)|
    && forall k :: 0 <= k < |draws| ==> LevelDrawsOk(cfg, draws[k], k)
  }

  /**
   * The buffer after level k, which does not trap, has been injected into
   * `s`; the level's draws fit a buffer of L+1 cells by `LevelDrawsFitBuffer`.
   */
  function LevelStep(cfg: Config, draws: seq<seq<seq<nat>>>, k: nat, s: seq<int>): (r: seq<int>)
    requires RunPre(cfg, draws) && k < |Levels(cfg)| && !LevelTraps(ParamsAt(cfg, k))
    requires |s| == cfg.sequenceLength + 1
    ensures |r| == |s|
  {
    var p := ParamsAt(cfg, k);
    LevelDrawsFitBuffer(cfg.sequenceLength, p.nbPatterns, Levels(cfg)[k], p.nbOccs, draws[k]);
    Level(cfg.sequenceLength, p.nbPatterns, Levels(cfg)[k], p.nbOccs, s, draws[k])
  }

  /** The outcome of a run whose buffer is `s` once levels 0..k-1 are done. */
  function RunFrom(cfg: Config, draws: seq<seq<seq<nat>>>, k: nat, s: seq<int>): Outcome
    requires RunPre(cfg, draws) && k <= |Levels(cfg)| && |s| == cfg.sequenceLength + 1
    decreases |Levels(cfg)| - k
  {
    if k == |Levels(cfg)| then Completed(s)
    else if LevelTraps(ParamsAt(cfg, k)) then Trapped(k)
    else RunFrom(cfg, draws, k + 1, LevelStep(cfg, draws, k, s))
  }

  /** The outcome of a run, from an all-background buffer of L+1 cells. */
  function RunOutcome(cfg: Config, draws: seq<seq<seq<nat>>>): Outcome
    requires RunPre(cfg, draws)
  {
    RunFrom(cfg, draws, 0, seq(cfg.sequenceLength + 1, _ => 0))
  }

  lemma {:induction false} RunFromShape(cfg: Config, draws: seq<seq<seq<nat>>>, k: nat, s: seq<int>)
    requires RunPre(cfg, draws) && k <= |Levels(cfg)| && |s| == cfg.sequenceLength + 1
    requires forall i :: 0 <= i < |s| ==> s[i] >= 0
    ensures RunFrom(cfg, draws, k, s).Completed? ==>
      var out := RunFrom(cfg, draws, k, s).sequence;
      |out| == cfg.sequenceLength + 1 && forall i :: 0 <= i < |out| ==> out[i] >= 0
    decreases |Levels(cfg)| - k
  {
    if k < |Levels(cfg)| && !LevelTraps(ParamsAt(cfg, k)) {
      var p := ParamsAt(cfg, k);
      LevelDrawsFitBuffer(cfg.sequenceLength, p.nbPatterns, Levels(cfg)[k], p.nbOccs, draws[k]);
      var next := LevelStep(cfg, draws, k, s);
      assert RunFrom(cfg, draws, k, s) == RunFrom(cfg, draws, k + 1, next);
      LevelNonNegative(cfg.sequenceLength, p.nbPatterns, Levels(cfg)[k], p.nbOccs, s, draws[k]);
      RunFromShape(cfg, draws, k + 1, next);
    }
  }

  lemma {:induction false} RunFromTraps(cfg: Config, draws: seq<seq<seq<nat>>>, k: nat, s: seq<int>)
    requires RunPre(cfg, draws) && k <= |Levels(cfg)| && |s| == cfg.sequenceLength + 1
    ensures RunFrom(cfg, draws, k, s).Completed?
      <==> forall j :: k <= j < |Levels(cfg)| ==> !LevelTraps(ParamsAt(cfg, j))
    decreases |Levels(cfg)| - k
  {
    if k == |Levels(cfg)| {
      assert RunFrom(cfg, draws, k, s) == Completed(s);
    } else if LevelTraps(ParamsAt(cfg, k)) {
      assert RunFrom(cfg, draws, k, s) == Trapped(k);
    } else {
      var next := LevelStep(cfg, draws, k, s);
      assert RunFrom(cfg, draws, k, s) == RunFrom(cfg, draws, k + 1, next);
      RunFromTraps(cfg, draws, k + 1, next);
    }
  }

  lemma {:induction false} RunFromFirstTrap(cfg: Config, draws: seq<seq<seq<nat>>>, k: nat, s: seq<int>)
    requires RunPre(cfg, draws) && k <= |Levels(cfg)| && |s| == cfg.sequenceLength + 1
    ensures RunFrom(cfg, draws, k, s).Trapped? ==>
      var l := RunFrom(cfg, draws, k, s).level;
      && k <= l < |Levels(cfg)| && LevelTraps(ParamsAt(cfg, l))
      && forall j :: k <= j < l ==> !LevelTraps(ParamsAt(cfg, j))
    decreases |Levels(cfg)| - k
  {
    if k == |Levels(cfg)| {
      assert RunFrom(cfg, draws, k, s) == Completed(s);
    } else if LevelTraps(ParamsAt(cfg, k)) {
      assert RunFrom(cfg, draws, k, s) == Trapped(k);
    } else {
      var next := LevelStep(cfg, draws, k, s);
      assert RunFrom(cfg, draws, k, s) == RunFrom(cfg, draws, k + 1, next);
      RunFromFirstTrap(cfg, draws, k + 1, next);
    }
  }

  /**
   * A completed run returns L+1 non-negative cells. A run traps exactly when
   * one of its levels has patterns but no occurrence, and then at the first
   * such level.
   */
  lemma RunOutcomeSpec(cfg: Config, draws: seq<seq<seq<nat>>>)
    requires RunPre(cfg, draws)
    ensures RunOutcome(cfg, draws).Completed? ==>
      var out := RunOutcome(cfg, draws).sequence;
      |out| == cfg.sequenceLength + 1 && forall i :: 0 <= i < |out| ==> out[i] >= 0
    ensures RunOutcome(cfg, draws).Trapped?
      <==> exists j :: 0 <= j < |Levels(cfg)| && LevelTraps(ParamsAt(cfg, j))
    ensures RunOutcome(cfg, draws).Trapped? ==>
      var l := RunOutcome(cfg, draws).level;
      && l < |Levels(cfg)| && LevelTraps(ParamsAt(cfg, l))
      && forall j :: 0 <= j < l ==> !LevelTraps(ParamsAt(cfg, j))
  {
    var zeros := seq(cfg.sequenceLength + 1, _ => 0);
    RunFromShape(cfg, draws, 0, zeros);
    RunFromTraps(cfg, draws, 0, zeros);
    RunFromFirstTrap(cfg, draws, 0, zeros);
  }

  /** A run anchored at the highest level always completes. */
  lemma HighestRunCompletes(cfg: Config, draws: seq<seq<seq<nat>>>)
    requires RunPre(cfg, draws) && cfg.from == Highest
    ensures RunOutcome(cfg, draws).Completed?
  {
    HighestNeverTraps(cfg.sequenceLength, cfg.nbLevels, cfg.levelType);
    RunOutcomeSpec(cfg, draws);
  }

  /**
   * With L = 30, origin `.Lowest` and one pattern many times, the plan is
   * [3, 30]; the level of length 3 plants one pattern 6 times, and the level
   * of length 30 gets nbOccs = 0, so the run traps there.
   */
  lemma LowestThirtyTraps(cfg: Config, draws: seq<seq<seq<nat>>>)
    requires RunPre(cfg, draws)
    requires cfg.sequenceLength == 30 && cfg.nbLevels >= 2
    requires cfg.from == Lowest && cfg.levelType == OnePatternManyTimes
    ensures Levels(cfg) == [3, 30]
    ensures ParamsAt(cfg, 0) == LevelParams(1, 6)
    ensures RunOutcome(cfg, draws) == Trapped(1)
  {
    LowestPlanReachesLength(cfg.nbLevels);
    RunOutcomeSpec(cfg, draws);
    assert LevelTraps(ParamsAt(cfg, 1));
  }

  /**
   * `Run`: plans the levels with the loops of the planning switch, then
   * folds `generateLevel` over them, reassigning the sequence per level.
   */
  method Run(cfg: Config, draws: seq<seq<seq<nat>>>) returns (r: Outcome)
    requires RunPre(cfg, draws)
    ensures r == RunOutcome(cfg, draws)
    ensures r.Completed? ==> |r.sequence| == cfg.sequenceLength + 1
  {
    var S0 := seq(cfg.sequenceLength + 1, _ => 0);
    var patternLength: seq<int>;
    match cfg.from {
      case Lowest =>
        patternLength := PlanLowest(cfg.sequenceLength, cfg.nbLevels);
      case Highest =>
        patternLength := PlanHighest(cfg.sequenceLength, cfg.nbLevels);
    }
    assert patternLength == Levels(cfg);
    var k := 0;
    while k < |patternLength|
      invariant 0 <= k <= |patternLength|
      invariant |S0| == cfg.sequenceLength + 1
      invariant RunFrom(cfg, draws, k, S0) == RunOutcome(cfg, draws)
    {
      var pl := patternLength[k];
      var p := Parameterize(cfg.sequenceLength, pl, cfg.levelType);
      if p.nbPatterns > 0 && p.nbOccs < 1 {
        // `for i in 1...nbOccs` with nbOccs == 0 traps
        return Trapped(k);
      }
      LevelDrawsFitBuffer(cfg.sequenceLength, p.nbPatterns, pl, p.nbOccs, draws[k]);
      S0 := GenerateLevel(cfg.sequenceLength, p.nbPatterns, pl, p.nbOccs, S0, draws[k]);
      k := k + 1;
    }
    r := Completed(S0);
  }
}

=== FILE: injection.dfy ===
/**
 * Pattern injection: one level of the generator (`generateLevel`).
 *
 * A level plants `nbPatterns` patterns of length `patternLength`, each
 * `nbOccs` times, into a copy of its input. The first occurrence of a pattern
 * gives every background cell (value 0) of its window a fresh symbol from a
 * counter that starts at 0 in every call, and leaves the other cells alone;
 * the window is then captured as the pattern's template. Every later
 * occurrence overwrites its own window with that template.
 *
 * The start offsets, drawn by `arc4random_uniform` in main.swift, are given
 * by the caller: `draws[p][i]` is the start of occurrence i+1 of pattern p+1.
 */
module Injection {

  /** Number of background cells (value 0) among s[lo..hi]. */
  function BackgroundCells(s: seq<int>, lo: nat, hi: nat): (n: nat)
    requires lo <= hi <= |s|
    ensures n <= hi - lo
    decreases hi - lo
  {
    if hi == lo then 0
    else BackgroundCells(s, lo, hi - 1) + if s[hi - 1] == 0 then 1 else 0
  }

  /** The buffer under construction together with the call's symbol counter. */
  datatype LevelState = LevelState(s: seq<int>, alphabetSize: int)

  /**
   * A value `arc4random_uniform(UInt32(sequenceLength - patternLength))` can
   * return: below its bound, or 0 when the bound is 0.
   */
  predicate ValidDraw(start: nat, sequenceLength: int, patternLength: int)
  {
    start < sequenceLength - patternLength || start == 0
  }

  // ---------------------------------------------------------------------
  // First occurrence: fill the background cells of the window
  // ---------------------------------------------------------------------

  /**
   * The state after the first-occurrence pass has visited the first `n`
   * cells of the window that starts at `start`.
   */
  function FillBackground(st: LevelState, start: nat, n: nat): (r: LevelState)
    requires start + n <= |st.s|
    ensures |r.s| == |st.s|
    decreases n
  {
    if n == 0 then st
    else
      var prev := FillBackground(st, start, n - 1);
      var j := start + n - 1;
      if prev.s[j] == 0 then LevelState(prev.s[j := prev.alphabetSize + 1], prev.alphabetSize + 1)
      else prev
  }

  /**
   * Exactly what the pass does: the counter grows by the number of
   * background cells visited; the m-th background cell of the window gets
   * the symbol counter + m; every other cell keeps its value.
   */
  lemma {:induction false} FillBackgroundAt(st: LevelState, start: nat, n: nat)
    requires start + n <= |st.s|
    ensures FillBackground(st, start, n).alphabetSize
      == st.alphabetSize + BackgroundCells(st.s, start, start + n)
    ensures forall k :: 0 <= k < |st.s| && !(start <= k < start + n) ==>
      FillBackground(st, start, n).s[k] == st.s[k]
    ensures forall k :: start <= k < start + n ==>
      FillBackground(st, start, n).s[k]
        == if st.s[k] == 0 then st.alphabetSize + BackgroundCells(st.s, start, k + 1) else st.s[k]
    decreases n
  {
    if n > 0 {
      FillBackgroundAt(st, start, n - 1);
    }
  }

  /** Counting the background cells of s[lo..hi] in two parts, split at mid. */
  lemma {:induction false} BackgroundSplit(s: seq<int>, lo: nat, mid: nat, hi: nat)
    requires lo <= mid <= hi <= |s|
    ensures BackgroundCells(s, lo, hi) == BackgroundCells(s, lo, mid) + BackgroundCells(s, mid, hi)
    decreases hi - mid
  {
    if hi > mid {
      BackgroundSplit(s, lo, mid, hi - 1);
    }
  }

  /**
   * The first-occurrence pass over a window of length `pl`: afterwards no
   * cell of the window is background; cells that held a symbol keep it;
   * cells outside the window are untouched; the counter grows by exactly the
   * number of background cells the window had (at most `pl`); and the new
   * symbols are above the old counter, at most the new one, and increase in
   * write order, so they are pairwise distinct.
   */
  lemma FirstOccurrenceFillsWindow(st: LevelState, start: nat, pl: nat)
    requires start + pl <= |st.s| && st.alphabetSize >= 0
    ensures var r := FillBackground(st, start, pl);
      && (forall k :: start <= k < start + pl ==> r.s[k] != 0)
      && (forall k :: start <= k < start + pl && st.s[k] != 0 ==> r.s[k] == st.s[k])
      && (forall k :: 0 <= k < |st.s| && !(start <= k < start + pl) ==> r.s[k] == st.s[k])
      && r.alphabetSize == st.alphabetSize + BackgroundCells(st.s, start, start + pl)
      && BackgroundCells(st.s, start, start + pl) <= pl
      && (forall k :: start <= k < start + pl && st.s[k] == 0 ==>
            st.alphabetSize < r.s[k] <= r.alphabetSize)
      && (forall k1, k2 :: start <= k1 < k2 < start + pl && st.s[k1] == 0 && st.s[k2] == 0 ==>
            r.s[k1] < r.s[k2])
  {
    FillBackgroundAt(st, start, pl);
    forall k | start <= k < start + pl && st.s[k] == 0
      ensures 1 <= BackgroundCells(st.s, start, k + 1) <= BackgroundCells(st.s, start, start + pl)
    {
      BackgroundSplit(st.s, start, k + 1, start + pl);
    }
    forall k1, k2 | start <= k1 < k2 < start + pl && st.s[k1] == 0 && st.s[k2] == 0
      ensures BackgroundCells(st.s, start, k1 + 1) < BackgroundCells(st.s, start, k2 + 1)
    {
      BackgroundSplit(st.s, start, k1 + 1, k2);
    }
  }

  /** The symbol a first pass gives background cell k lies above the old counter and at most the new one. */
  lemma NewSymbolBounds(st: LevelState, start: nat, pl: nat, k: nat)
    requires start + pl <= |st.s| && st.alphabetSize >= 0
    requires start <= k < start + pl && st.s[k] == 0
    ensures var r := FillBackground(st, start, pl);
      st.alphabetSize < r.s[k] <= r.alphabetSize
  {
    FirstOccurrenceFillsWindow(st, start, pl);
  }

  // ---------------------------------------------------------------------
  // Later occurrences: stamp the template
  // ---------------------------------------------------------------------

  /** `pattern` written over the window of `s` that starts at `start` (`replaceSubrange`). */
  function Stamp(s: seq<int>, start: nat, pattern: seq<int>): (r: seq<int>)
    requires start + |pattern| <= |s|
    ensures |r| == |s|
    ensures forall k :: start <= k < start + |pattern| ==> r[k] == pattern[k - start]
    ensures forall k :: 0 <= k < |s| && !(start <= k < start + |pattern|) ==> r[k] == s[k]
  {
    s[..start] + pattern + s[start + |pattern|..]
  }

  /** Every draw of `starts` puts a window of length `pl` inside a buffer of `size` cells. */
  predicate WindowsFit(starts: seq<nat>, pl: nat, size: int)
  {
    forall i :: 0 <= i < |starts| ==> starts[i] + pl <= size
  }

  /**
   * The buffer after occurrences 2..n of `pattern` were stamped at
   * `starts[1..n)`.
   */
  function StampOccurrences(s: seq<int>, pattern: seq<int>, starts: seq<nat>, n: nat): (r: seq<int>)
    requires 1 <= n <= |starts|
    requires WindowsFit(starts, |pattern|, |s|)
    ensures |r| == |s|
    decreases n
  {
    if n == 1 then s
    else Stamp(StampOccurrences(s, pattern, starts, n - 1), starts[n - 1], pattern)
  }

  /** After occurrence n >= 2 has been stamped, its window holds the template. */
  lemma StampOccurrencesLatest(s: seq<int>, pattern: seq<int>, starts: seq<nat>, n: nat)
    requires 2 <= n <= |starts|
    requires WindowsFit(starts, |pattern|, |s|)
    ensures var r := StampOccurrences(s, pattern, starts, n);
      forall k :: starts[n - 1] <= k < starts[n - 1] + |pattern| ==> r[k] == pattern[k - starts[n - 1]]
  {
  }

  /** A cell that none of the windows stamped at `starts[1..n)` covers keeps its value. */
  lemma {:induction false} StampOccurrencesUntouched(s: seq<int>, pattern: seq<int>, starts: seq<nat>, n: nat)
    requires 1 <= n <= |starts|
    requires WindowsFit(starts, |pattern|, |s|)
    ensures forall k :: 0 <= k < |s| && (forall i :: 1 <= i < n ==> !(starts[i] <= k < starts[i] + |pattern|)) ==>
      StampOccurrences(s, pattern, starts, n)[k] == s[k]
    decreases n
  {
    if n >= 2 {
      StampOccurrencesUntouched(s, pattern, starts, n - 1);
    }
  }

  // ---------------------------------------------------------------------
  // One pattern, then all patterns of a level
  // ---------------------------------------------------------------------

  /**
   * One pattern: the first occurrence at `starts[0]` fills the background of
   * its window, the window is captured as the template, and the later
   * occurrences stamp it at `starts[1..]`.
   */
  function PlacePattern(st: LevelState, pl: nat, starts: seq<nat>): (r: LevelState)
    requires 1 <= |starts|
    requires WindowsFit(starts, pl, |st.s|)
    ensures |r.s| == |st.s|
  {
    var first := FillBackground(st, starts[0], pl);
    var template := first.s[starts[0]..starts[0] + pl];
    LevelState(StampOccurrences(first.s, template, starts, |starts|), first.alphabetSize)
  }

  /**
   * The template of a pattern: `pl` cells, none of them background, each
   * the old cell's symbol where there was one.
   */
  lemma TemplateHasNoBackground(st: LevelState, start: nat, pl: nat)
    requires start + pl <= |st.s| && st.alphabetSize >= 0
    ensures var t := FillBackground(st, start, pl).s[start..start + pl];
      && |t| == pl
      && (forall k :: 0 <= k < pl ==> t[k] != 0)
      && (forall k :: 0 <= k < pl && st.s[start + k] != 0 ==> t[k] == st.s[start + k])
  {
    FirstOccurrenceFillsWindow(st, start, pl);
  }

  /** The draws of every pattern of a level are non-empty and fit the buffer. */
  predicate DrawsFit(draws: seq<seq<nat>>, pl: nat, size: int)
  {
    forall q :: 0 <= q < |draws| ==> 1 <= |draws[q]| && WindowsFit(draws[q], pl, size)
  }

  /** The state after the first `p` patterns of a level have been placed. */
  function PlacePatterns(st: LevelState, pl: nat, draws: seq<seq<nat>>, p: nat): (r: LevelState)
    requires p <= |draws|
    requires DrawsFit(draws, pl, |st.s|)
    ensures |r.s| == |st.s|
    decreases p
  {
    if p == 0 then st
    else PlacePattern(PlacePatterns(st, pl, draws, p - 1), pl, draws[p - 1])
  }

  /**
   * The draws of a level, one per pattern and occurrence, each a value the
   * random source can return; without patterns nothing is drawn. With
   * patterns to place, the window range needs pl >= 1, the bound
   * `UInt32(L - pl)` needs pl <= L and the range `1...nbOccs` needs
   * nbOccs >= 1 (each violation traps in main.swift).
   */
  predicate LevelDraws(sequenceLength: int, nbPatterns: int, patternLength: int, nbOccs: int,
                       draws: seq<seq<nat>>)
  {
    if nbPatterns <= 0 then draws == []
    else
      && 1 <= patternLength <= sequenceLength
      && nbOccs >= 1
      && |draws| == nbPatterns
      && (forall q :: 0 <= q < |draws| ==> |draws[q]| == nbOccs)
      && (forall q, i :: 0 <= q < |draws| && 0 <= i < |draws[q]| ==>
            ValidDraw(draws[q][i], sequenceLength, patternLength))
  }

  /**
   * What `generateLevel` demands of its caller: draws as above, and every
   * drawn window inside the buffer of `size` cells, since `generateLevel`
   * takes the buffer and its length separately.
   */
  predicate LevelPre(sequenceLength: int, nbPatterns: int, patternLength: int, nbOccs: int,
                     size: int, draws: seq<seq<nat>>)
  {
    && LevelDraws(sequenceLength, nbPatterns, patternLength, nbOccs, draws)
    && forall q, i :: 0 <= q < |draws| && 0 <= i < |draws[q]| ==> draws[q][i] + patternLength <= size
  }

  /**
   * A window whose start the random source drew ends before cell L: below
   * `L - pl` it ends before cell L - 1, and the start 0 (a bound of 0) needs
   * pl <= L.
   */
  lemma ValidDrawFits(start: nat, sequenceLength: int, patternLength: int)
    requires 1 <= patternLength <= sequenceLength
    requires ValidDraw(start, sequenceLength, patternLength)
    ensures start + patternLength <= sequenceLength
  {
  }

  /**
   * So every window a level draws lies inside the L+1 cells `Run`
   * allocates, and none reaches the last cell: the draws alone meet
   * `generateLevel`'s demands on a buffer of L+1 cells.
   */
  lemma LevelDrawsFitBuffer(sequenceLength: int, nbPatterns: int, patternLength: int, nbOccs: int,
                            draws: seq<seq<nat>>)
    requires LevelDraws(sequenceLength, nbPatterns, patternLength, nbOccs, draws)
    ensures forall q, i :: 0 <= q < |draws| && 0 <= i < |draws[q]| ==>
      draws[q][i] + patternLength <= sequenceLength
    ensures LevelPre(sequenceLength, nbPatterns, patternLength, nbOccs, sequenceLength + 1, draws)
  {
    forall q, i | 0 <= q < |draws| && 0 <= i < |draws[q]|
      ensures draws[q][i] + patternLength <= sequenceLength
    {
      ValidDrawFits(draws[q][i], sequenceLength, patternLength);
    }
  }

  /** The buffer `generateLevel` returns; its counter starts at 0 on every call. */
  function Level(sequenceLength: int, nbPatterns: int, patternLength: int, nbOccs: int,
                 input: seq<int>, draws: seq<seq<nat>>): (output: seq<int>)
    requires LevelPre(sequenceLength, nbPatterns, patternLength, nbOccs, |input|, draws)
    ensures |output| == |input|
  {
    if nbPatterns <= 0 then input
    else PlacePatterns(LevelState(input, 0), patternLength, draws, nbPatterns).s
  }

  /** Every cell of `s` holds a value of `input` or one of the symbols 1..a. */
  predicate SymbolsFrom(s: seq<int>, input: seq<int>, a: int)
  {
    forall k :: 0 <= k < |s| ==> s[k] in input || 1 <= s[k] <= a
  }

  /** Stamping copies of a template keeps the cells within the input's values and 1..a. */
  lemma {:induction false} StampOccurrencesSymbols(s: seq<int>, pattern: seq<int>, starts: seq<nat>, n: nat,
                                                   input: seq<int>, a: int)
    requires 1 <= n <= |starts| && WindowsFit(starts, |pattern|, |s|)
    requires SymbolsFrom(s, input, a) && SymbolsFrom(pattern, input, a)
    ensures SymbolsFrom(StampOccurrences(s, pattern, starts, n), input, a)
    decreases n
  {
    if n >= 2 {
      StampOccurrencesSymbols(s, pattern, starts, n - 1, input, a);
      var prev := StampOccurrences(s, pattern, starts, n - 1);
      var r := Stamp(prev, starts[n - 1], pattern);
      forall k | 0 <= k < |r| ensures r[k] in input || 1 <= r[k] <= a {
        if starts[n - 1] <= k < starts[n - 1] + |pattern| {
          assert r[k] == pattern[k - starts[n - 1]];
        } else {
          assert r[k] == prev[k];
        }
      }
    }
  }

  lemma PlacePatternSymbols(st: LevelState, pl: nat, starts: seq<nat>, input: seq<int>)
    requires 1 <= |starts| && WindowsFit(starts, pl, |st.s|)
    requires st.alphabetSize >= 0 && SymbolsFrom(st.s, input, st.alphabetSize)
    ensures var r := PlacePattern(st, pl, starts);
      && st.alphabetSize <= r.alphabetSize <= st.alphabetSize + pl
      && SymbolsFrom(r.s, input, r.alphabetSize)
  {
    var first := FillBackground(st, starts[0], pl);
    var template := first.s[starts[0]..starts[0] + pl];
    FirstOccurrenceFillsWindow(st, starts[0], pl);
    assert SymbolsFrom(first.s, input, first.alphabetSize);
    assert SymbolsFrom(template, input, first.alphabetSize) by {
      forall m | 0 <= m < |template|
        ensures template[m] in input || 1 <= template[m] <= first.alphabetSize
      {
        assert template[m] == first.s[starts[0] + m];
      }
    }
    StampOccurrencesSymbols(first.s, template, starts, |starts|, input, first.alphabetSize);
  }

  /**
   * After `p` patterns the counter has grown by at most `pl` per pattern and
   * every cell holds a value the buffer held before or a symbol 1..counter.
   */
  lemma {:induction false} PlacePatternsSymbols(st: LevelState, pl: nat, draws: seq<seq<nat>>, p: nat)
    requires p <= |draws| && DrawsFit(draws, pl, |st.s|)
    requires st.alphabetSize == 0
    ensures var r := PlacePatterns(st, pl, draws, p);
      && 0 <= r.alphabetSize <= p * pl
      && SymbolsFrom(r.s, st.s, r.alphabetSize)
    decreases p
  {
    if p > 0 {
      PlacePatternsSymbols(st, pl, draws, p - 1);
      assert (p - 1) * pl + pl == p * pl;
      PlacePatternSymbols(PlacePatterns(st, pl, draws, p - 1), pl, draws[p - 1], st.s);
    }
  }

  /**
   * Pattern p-1's first pass starts from the counter the patterns before it
   * left and raises it by the number of background cells of its window;
   * pattern p starts from there.
   */
  lemma PlacePatternCounter(st: LevelState, pl: nat, draws: seq<seq<nat>>, p: nat)
    requires 1 <= p <= |draws| && DrawsFit(draws, pl, |st.s|)
    ensures var before := PlacePatterns(st, pl, draws, p - 1);
      var w := draws[p - 1][0];
      && w + pl <= |before.s|
      && PlacePatterns(st, pl, draws, p).alphabetSize
           == before.alphabetSize + BackgroundCells(before.s, w, w + pl)
  {
    var before := PlacePatterns(st, pl, draws, p - 1);
    assert WindowsFit(draws[p - 1], pl, |before.s|);
    FillBackgroundAt(before, draws[p - 1][0], pl);
  }

  /**
   * The first pass of pattern q gives the m-th background cell of its window
   * the symbol counter+m, where counter is what the patterns before it left.
   */
  lemma PatternSymbolAt(st: LevelState, pl: nat, draws: seq<seq<nat>>, q: nat, k: nat)
    requires q < |draws| && DrawsFit(draws, pl, |st.s|)
    requires var before := PlacePatterns(st, pl, draws, q);
      draws[q][0] <= k < draws[q][0] + pl && k < |before.s| && before.s[k] == 0
    ensures var before := PlacePatterns(st, pl, draws, q);
      var w := draws[q][0];
      w + pl <= |before.s|
      && FillBackground(before, w, pl).s[k] == before.alphabetSize + BackgroundCells(before.s, w, k + 1)
  {
    var before := PlacePatterns(st, pl, draws, q);
    assert WindowsFit(draws[q], pl, |before.s|);
    FillBackgroundAt(before, draws[q][0], pl);
  }

  /** The counter never goes down from one pattern to a later one. */
  lemma {:induction false} PlacePatternsCounterGrows(st: LevelState, pl: nat, draws: seq<seq<nat>>, q1: nat, q2: nat)
    requires q1 <= q2 <= |draws| && DrawsFit(draws, pl, |st.s|)
    ensures PlacePatterns(st, pl, draws, q1).alphabetSize <= PlacePatterns(st, pl, draws, q2).alphabetSize
    decreases q2
  {
    if q1 < q2 {
      PlacePatternsCounterGrows(st, pl, draws, q1, q2 - 1);
      PlacePatternCounter(st, pl, draws, q2);
    }
  }

  /**
   * Symbols of different patterns of one call never coincide: every symbol
   * the first pass of pattern q1 writes is below every symbol the first pass
   * of a later pattern q2 writes.
   */
  lemma SymbolsIncreaseAcrossPatterns(st: LevelState, pl: nat, draws: seq<seq<nat>>,
                                      q1: nat, q2: nat, k1: nat, k2: nat)
    requires q1 < q2 < |draws| && DrawsFit(draws, pl, |st.s|) && st.alphabetSize >= 0
    requires var b1 := PlacePatterns(st, pl, draws, q1);
      draws[q1][0] <= k1 < draws[q1][0] + pl && k1 < |b1.s| && b1.s[k1] == 0
    requires var b2 := PlacePatterns(st, pl, draws, q2);
      draws[q2][0] <= k2 < draws[q2][0] + pl && k2 < |b2.s| && b2.s[k2] == 0
    ensures FillBackground(PlacePatterns(st, pl, draws, q1), draws[q1][0], pl).s[k1]
      < FillBackground(PlacePatterns(st, pl, draws, q2), draws[q2][0], pl).s[k2]
  {
    var b1 := PlacePatterns(st, pl, draws, q1);
    var b2 := PlacePatterns(st, pl, draws, q2);
    PlacePatternsCounterGrows(st, pl, draws, 0, q1);
    PlacePatternsCounterGrows(st, pl, draws, q1 + 1, q2);
    assert WindowsFit(draws[q1], pl, |b1.s|) && WindowsFit(draws[q2], pl, |b2.s|);
    NewSymbolBounds(b1, draws[q1][0], pl, k1);
    NewSymbolBounds(b2, draws[q2][0], pl, k2);
    assert PlacePatterns(st, pl, draws, q1 + 1).alphabetSize
      == FillBackground(b1, draws[q1][0], pl).alphabetSize;
  }

  /**
   * The symbols one `generateLevel` call allocates are 1, 2, ..., at most
   * patternLength per pattern: every output cell holds a value of the input
   * or such a symbol. Because the counter restarts at 0, those symbols may
   * equal symbols the input already holds.
   */
  lemma LevelSymbols(sequenceLength: int, nbPatterns: int, patternLength: int, nbOccs: int,
                     input: seq<int>, draws: seq<seq<nat>>)
    requires LevelPre(sequenceLength, nbPatterns, patternLength, nbOccs, |input|, draws)
    ensures var output := Level(sequenceLength, nbPatterns, patternLength, nbOccs, input, draws);
      forall k :: 0 <= k < |output| ==>
        output[k] in input || 1 <= output[k] <= nbPatterns * patternLength
  {
    if nbPatterns > 0 {
      PlacePatternsSymbols(LevelState(input, 0), patternLength, draws, nbPatterns);
    }
  }

  /** A level keeps a buffer of non-negative values non-negative. */
  lemma LevelNonNegative(sequenceLength: int, nbPatterns: int, patternLength: int, nbOccs: int,
                         input: seq<int>, draws: seq<seq<nat>>)
    requires LevelPre(sequenceLength, nbPatterns, patternLength, nbOccs, |input|, draws)
    requires forall k :: 0 <= k < |input| ==> input[k] >= 0
    ensures var output := Level(sequenceLength, nbPatterns, patternLength, nbOccs, input, draws);
      forall k :: 0 <= k < |output| ==> output[k] >= 0
  {
    LevelSymbols(sequenceLength, nbPatterns, patternLength, nbOccs, input, draws);
  }

  /**
   * A level with one pattern and one occurrence is not skipped: it fills the
   * background of one window, which then holds no background cell, and
   * leaves the rest of the buffer alone. The counter restarts with every
   * call, so a background first cell gets symbol 1 whatever symbols the input
   * (earlier levels) already holds.
   */
  lemma LonePatternLevel(sequenceLength: int, patternLength: int, input: seq<int>, draws: seq<seq<nat>>)
    requires LevelPre(sequenceLength, 1, patternLength, 1, |input|, draws)
    ensures var output := Level(sequenceLength, 1, patternLength, 1, input, draws);
      var d := draws[0][0];
      && (forall k :: d <= k < d + patternLength ==> output[k] != 0)
      && (forall k :: 0 <= k < |input| && !(d <= k < d + patternLength) ==> output[k] == input[k])
      && (input[d] == 0 ==> output[d] == 1)
  {
    var d := draws[0][0];
    FirstOccurrenceFillsWindow(LevelState(input, 0), d, patternLength);
    FillBackgroundAt(LevelState(input, 0), d, patternLength);
    assert BackgroundCells(input, d, d + 1) == if input[d] == 0 then 1 else 0;
    assert PlacePatterns(LevelState(input, 0), patternLength, draws, 0) == LevelState(input, 0);
  }

  // ---------------------------------------------------------------------
  // The imperative procedure
  // ---------------------------------------------------------------------

  /**
   * The first-occurrence loop over the window of `S` that starts at
   * `start`, on the buffer in place.
   */
  method FillWindow(S: array<int>, start: nat, patternLength: nat, alphabetSize: int)
    returns (newAlphabetSize: int)
    requires start + patternLength <= S.Length
    modifies S
    ensures LevelState(S[..], newAlphabetSize)
      == FillBackground(LevelState(old(S[..]), alphabetSize), start, patternLength)
  {
    ghost var before := LevelState(S[..], alphabetSize);
    newAlphabetSize := alphabetSize;
    var j := start;
    while j <= start + patternLength - 1
      invariant start <= j <= start + patternLength
      invariant LevelState(S[..], newAlphabetSize) == FillBackground(before, start, j - start)
    {
      if S[j] == 0 {
        newAlphabetSize := newAlphabetSize + 1;
        S[j] := newAlphabetSize;
      }
      j := j + 1;
    }
  }

  /**
   * The first occurrence of a pattern: fill the window's background cells,
   * then capture the window as the pattern's template.
   */
  method FirstOccurrence(S: array<int>, start: nat, patternLength: nat, alphabetSize: int)
    returns (newAlphabetSize: int, pattern: seq<int>)
    requires start + patternLength <= S.Length
    modifies S
    ensures LevelState(S[..], newAlphabetSize)
      == FillBackground(LevelState(old(S[..]), alphabetSize), start, patternLength)
    ensures pattern
      == FillBackground(LevelState(old(S[..]), alphabetSize), start, patternLength).s[start..start + patternLength]
  {
    newAlphabetSize := FillWindow(S, start, patternLength, alphabetSize);
    pattern := S[start..start + patternLength];
    assert pattern == S[..][start..start + patternLength];
  }

  /** `replaceSubrange`: the template written over the window of `S` at `start`. */
  method StampWindow(S: array<int>, start: nat, pattern: seq<int>)
    requires start + |pattern| <= S.Length
    modifies S
    ensures S[..] == Stamp(old(S[..]), start, pattern)
  {
    forall k | start <= k < start + |pattern| {
      S[k] := pattern[k - start];
    }
    assert S[..] == Stamp(old(S[..]), start, pattern);
  }

  /**
   * The state after the first n occurrences of the pattern whose windows
   * start at `starts`: for n >= 1 the first window has been filled and
   * occurrences 2..n stamped with its template.
   */
  ghost function OccurrencesDone(st: LevelState, pl: nat, starts: seq<nat>, n: nat): LevelState
    requires n <= |starts| && 1 <= |starts| && WindowsFit(starts, pl, |st.s|)
  {
    if n == 0 then st
    else
      var first := FillBackground(st, starts[0], pl);
      LevelState(StampOccurrences(first.s, first.s[starts[0]..starts[0] + pl], starts, n), first.alphabetSize)
  }

  /**
   * The body of the `for _ in 1...nbPatterns` loop: all occurrences of one
   * pattern, on the buffer in place. `pattern` is the captured template.
   */
  method PlaceOnePattern(S: array<int>, patternLength: nat, nbOccs: int, starts: seq<nat>, alphabetSize: int)
    returns (newAlphabetSize: int)
    requires nbOccs >= 1 && |starts| == nbOccs && WindowsFit(starts, patternLength, S.Length)
    modifies S
    ensures LevelState(S[..], newAlphabetSize)
      == PlacePattern(LevelState(old(S[..]), alphabetSize), patternLength, starts)
  {
    ghost var before := LevelState(S[..], alphabetSize);
    ghost var first := FillBackground(before, starts[0], patternLength);
    newAlphabetSize := alphabetSize;
    var pattern: seq<int> := [];
    var i := 1;
    while i <= nbOccs
      invariant 1 <= i <= nbOccs + 1
      invariant LevelState(S[..], newAlphabetSize) == OccurrencesDone(before, patternLength, starts, i - 1)
      invariant i > 1 ==> pattern == first.s[starts[0]..starts[0] + patternLength]
    {
      var start := starts[i - 1];
      if i == 1 {
        newAlphabetSize, pattern := FirstOccurrence(S, start, patternLength, newAlphabetSize);
      } else {
        StampWindow(S, start, pattern);
      }
      i := i + 1;
    }
  }

  /**
   * The `for _ in 1...nbPatterns` loop: every pattern of a level, on the
   * buffer in place, with a symbol counter that starts at 0.
   */
  method PlacePatternsInPlace(S: array<int>, patternLength: nat, nbPatterns: int, nbOccs: int,
                              draws: seq<seq<nat>>)
    requires nbOccs >= 1 && |draws| == nbPatterns
    requires forall q :: 0 <= q < |draws| ==> |draws[q]| == nbOccs
    requires DrawsFit(draws, patternLength, S.Length)
    modifies S
    ensures S[..] == PlacePatterns(LevelState(old(S[..]), 0), patternLength, draws, nbPatterns).s
  {
    ghost var start := LevelState(S[..], 0);
    var alphabetSize := 0;
    var p := 0;
    while p < nbPatterns
      invariant 0 <= p <= nbPatterns
      invariant LevelState(S[..], alphabetSize) == PlacePatterns(start, patternLength, draws, p)
    {
      ghost var done := LevelState(S[..], alphabetSize);
      alphabetSize := PlaceOnePattern(S, patternLength, nbOccs, draws[p], alphabetSize);
      assert PlacePatterns(start, patternLength, draws, p + 1)
        == PlacePattern(done, patternLength, draws[p]);
      p := p + 1;
    }
  }

  /**
   * `generateLevel`: copies the input into a buffer, places the level's
   * patterns in it when there are any, and returns it.
   */
  method GenerateLevel(sequenceLength: int, nbPatterns: int, patternLength: int, nbOccs: int,
                       input: seq<int>, draws: seq<seq<nat>>) returns (output: seq<int>)
    requires LevelPre(sequenceLength, nbPatterns, patternLength, nbOccs, |input|, draws)
    ensures output == Level(sequenceLength, nbPatterns, patternLength, nbOccs, input, draws)
    ensures |output| == |input|
    ensures nbPatterns <= 0 ==> output == input
  {
    var S := new int[|input|](k requires 0 <= k < |input| => input[k]);
    assert S[..] == input;
    if nbPatterns > 0 {
      assert DrawsFit(draws, patternLength, S.Length);
      PlacePatternsInPlace(S, patternLength, nbPatterns, nbOccs, draws);
    }
    output := S[..];
  }
}

=== FILE: planning.dfy ===
/**
 * Level planning and per-level parameterisation of the PatMakr generator.
 *
 * A level is one pass of pattern injection at one pattern length. The
 * planner chooses the pattern lengths (3, 30, 300, ... from the low end, or
 * L*3/10, L*3/100, ... from the high end, always listed in ascending order);
 * the parameteriser chooses, for one length, how many distinct patterns and
 * how many occurrences of each the level plants.
 */
module Planning {

  /** Which end of the range of pattern lengths the levels are anchored at. */
  datatype Origin = Highest | Lowest

  /** How a level spends its budget: one pattern many times, or many patterns twice. */
  datatype LevelType = OnePatternManyTimes | ManyPatternsTwice

  /** The number of distinct patterns and of occurrences per pattern of one level. */
  datatype LevelParams = LevelParams(nbPatterns: int, nbOccs: int)

  function Pow10(k: nat): (r: nat)
    ensures r >= 1
  {
    if k == 0 then 1 else 10 * Pow10(k - 1)
  }

  lemma {:induction false} Pow10Increasing(i: nat, j: nat)
    requires i < j
    ensures Pow10(i) < Pow10(j)
    decreases j
  {
    if i < j - 1 {
      Pow10Increasing(i, j - 1);
    }
  }

  predicate StrictlyAscending(r: seq<int>)
  {
    forall i, j :: 0 <= i < j < |r| ==> r[i] < r[j]
  }

  // ---------------------------------------------------------------------
  // Origin .Lowest: candidates 3, 30, 300, ... appended while not above L
  // ---------------------------------------------------------------------

  /**
   * The lengths the `.Lowest` loop appends when its candidate is `pl` and
   * `rounds` iterations of `for _ in 1...nbLevels` are left. The stop test is
   * `pl > sequenceLength`, so a candidate equal to the sequence length is kept.
   */
  function LowestFrom(pl: int, sequenceLength: int, rounds: nat): seq<int>
    decreases rounds
  {
    if rounds == 0 || pl > sequenceLength then []
    else [pl] + LowestFrom(pl * 10, sequenceLength, rounds - 1)
  }

  function LowestPlan(sequenceLength: int, nbLevels: nat): seq<int>
  {
    LowestFrom(3, sequenceLength, nbLevels)
  }

  lemma {:induction false} LowestFromShape(i: nat, sequenceLength: int, rounds: nat)
    ensures |LowestFrom(3 * Pow10(i), sequenceLength, rounds)| <= rounds
    ensures forall k :: 0 <= k < |LowestFrom(3 * Pow10(i), sequenceLength, rounds)| ==>
      LowestFrom(3 * Pow10(i), sequenceLength, rounds)[k] == 3 * Pow10(i + k) <= sequenceLength
    ensures var n := |LowestFrom(3 * Pow10(i), sequenceLength, rounds)|;
      n == rounds || 3 * Pow10(i + n) > sequenceLength
    decreases rounds
  {
    if rounds > 0 && 3 * Pow10(i) <= sequenceLength {
      assert 3 * Pow10(i) * 10 == 3 * Pow10(i + 1);
      LowestFromShape(i + 1, sequenceLength, rounds - 1);
      var tail := LowestFrom(3 * Pow10(i + 1), sequenceLength, rounds - 1);
      assert LowestFrom(3 * Pow10(i), sequenceLength, rounds) == [3 * Pow10(i)] + tail;
      forall k | 1 <= k < 1 + |tail|
        ensures ([3 * Pow10(i)] + tail)[k] == 3 * Pow10(i + k)
      {
        assert tail[k - 1] == 3 * Pow10(i + 1 + (k - 1));
      }
    }
  }

  /**
   * The `.Lowest` plan is 3, 30, 300, ...: entry k is 3 * 10^k, so the list is
   * strictly ascending; every entry is at most the sequence length (equality
   * is possible); there are at most nbLevels entries, and the list stops
   * early only because the next candidate exceeds the sequence length.
   */
  lemma LowestPlanShape(sequenceLength: int, nbLevels: nat)
    ensures var r := LowestPlan(sequenceLength, nbLevels);
      && |r| <= nbLevels
      && (forall k :: 0 <= k < |r| ==> r[k] == 3 * Pow10(k) && 3 <= r[k] <= sequenceLength)
      && StrictlyAscending(r)
      && (|r| == nbLevels || 3 * Pow10(|r|) > sequenceLength)
  {
    LowestFromShape(0, sequenceLength, nbLevels);
    var r := LowestPlan(sequenceLength, nbLevels);
    forall i, j | 0 <= i < j < |r| ensures r[i] < r[j] {
      Pow10Increasing(i, j);
    }
  }

  /** With L = 30 the `.Lowest` plan holds a pattern as long as the whole sequence. */
  lemma LowestPlanReachesLength(nbLevels: nat)
    requires nbLevels >= 2
    ensures LowestPlan(30, nbLevels) == [3, 30]
  {
    assert LowestFrom(300, 30, nbLevels - 2) == [];
    assert LowestFrom(30, 30, nbLevels - 1) == [30] + LowestFrom(300, 30, nbLevels - 2);
    assert LowestFrom(3, 30, nbLevels) == [3] + LowestFrom(30, 30, nbLevels - 1);
  }

  // ---------------------------------------------------------------------
  // Origin .Highest: candidates L*3/10, then /10, prepended while nonzero
  // ---------------------------------------------------------------------

  /**
   * The list the `.Highest` loop builds when its candidate is `pl` and
   * `rounds` iterations are left: candidates are inserted at the front, so
   * the later (smaller) ones come first.
   */
  function HighestFrom(pl: nat, rounds: nat): seq<int>
    decreases rounds
  {
    if rounds == 0 || pl == 0 then []
    else HighestFrom(pl / 10, rounds - 1) + [pl]
  }

  function HighestPlan(sequenceLength: int, nbLevels: nat): seq<int>
    requires sequenceLength >= 0
  {
    HighestFrom(sequenceLength * 3 / 10, nbLevels)
  }

  /**
   * The list built from candidate `pl`: positive entries no larger than `pl`,
   * ending with `pl`, each entry the next one divided by 10, strictly
   * ascending, at most `rounds` entries, and shorter only when the
   * candidates ran down to 0; empty exactly when no round is left or `pl` is 0.
   */
  lemma {:induction false} HighestFromShape(pl: nat, rounds: nat)
    ensures var r := HighestFrom(pl, rounds);
      && |r| <= rounds
      && (forall k :: 0 <= k < |r| ==> 1 <= r[k] <= pl)
      && (r != [] ==> r[|r| - 1] == pl)
      && (forall k :: 0 <= k < |r| - 1 ==> r[k] == r[k + 1] / 10)
      && StrictlyAscending(r)
      && (|r| < rounds ==> if r == [] then pl == 0 else r[0] < 10)
      && (r == [] <==> rounds == 0 || pl == 0)
    decreases rounds
  {
    if rounds > 0 && pl > 0 {
      HighestFromShape(pl / 10, rounds - 1);
      var t := HighestFrom(pl / 10, rounds - 1);
      var r := t + [pl];
      assert HighestFrom(pl, rounds) == r;
      forall k | 0 <= k < |r| - 1 ensures r[k] == r[k + 1] / 10 {
        if k == |t| - 1 {
          assert r[k + 1] == pl;
        } else {
          assert r[k] == t[k] && r[k + 1] == t[k + 1];
        }
      }
    }
  }

  /**
   * The `.Highest` plan: positive entries, strictly ascending, the last one
   * L*3/10, each entry the next one divided by 10, at most nbLevels entries,
   * stopping early only when the next candidate would be 0, and empty only
   * when there are no rounds or L*3/10 is 0. Every entry is strictly shorter
   * than the sequence.
   */
  lemma HighestPlanShape(sequenceLength: int, nbLevels: nat)
    requires sequenceLength >= 0
    ensures var r := HighestPlan(sequenceLength, nbLevels);
      && |r| <= nbLevels
      && (forall k :: 0 <= k < |r| ==> 1 <= r[k] <= sequenceLength * 3 / 10 < sequenceLength)
      && (r != [] ==> r[|r| - 1] == sequenceLength * 3 / 10)
      && (forall k :: 0 <= k < |r| - 1 ==> r[k] == r[k + 1] / 10)
      && StrictlyAscending(r)
      && (|r| < nbLevels ==> if r == [] then sequenceLength * 3 / 10 == 0 else r[0] / 10 == 0)
      && (r == [] <==> nbLevels == 0 || sequenceLength * 3 / 10 == 0)
  {
    HighestFromShape(sequenceLength * 3 / 10, nbLevels);
  }

  /** The lengths the generator plans, for either origin. */
  function Plan(sequenceLength: int, nbLevels: nat, origin: Origin): (r: seq<int>)
    requires sequenceLength >= 0
    ensures forall k :: 0 <= k < |r| ==> 1 <= r[k] <= sequenceLength
    ensures StrictlyAscending(r)
  {
    match origin
    case Lowest =>
      LowestPlanShape(sequenceLength, nbLevels);
      LowestPlan(sequenceLength, nbLevels)
    case Highest =>
      HighestPlanShape(sequenceLength, nbLevels);
      HighestPlan(sequenceLength, nbLevels)
  }

  /**
   * With the preset sequence length of 1000 and no practical bound on the
   * number of levels, both origins plan the same three lengths, so the
   * origin makes no difference there.
   */
  lemma OriginUnusedAtPreset(nbLevels: nat)
    requires nbLevels >= 3
    ensures Plan(1000, nbLevels, Lowest) == [3, 30, 300]
    ensures Plan(1000, nbLevels, Highest) == [3, 30, 300]
  {
    assert LowestFrom(3000, 1000, nbLevels - 3) == [];
    assert LowestFrom(300, 1000, nbLevels - 2) == [300] + LowestFrom(3000, 1000, nbLevels - 3);
    assert LowestFrom(30, 1000, nbLevels - 1) == [30] + LowestFrom(300, 1000, nbLevels - 2);
    assert LowestFrom(3, 1000, nbLevels) == [3] + LowestFrom(30, 1000, nbLevels - 1);
    assert HighestFrom(0, nbLevels - 3) == [];
    assert HighestFrom(3, nbLevels - 2) == HighestFrom(0, nbLevels - 3) + [3];
    assert HighestFrom(30, nbLevels - 1) == HighestFrom(3, nbLevels - 2) + [30];
    assert HighestFrom(300, nbLevels) == HighestFrom(30, nbLevels - 1) + [300];
  }

  /**
   * The origin does matter for other lengths, however many levels are
   * allowed: with L = 500, `.Lowest` plans 3, 30, 300 and `.Highest` plans
   * 1, 15, 150.
   */
  lemma OriginMattersAtFiveHundred(nbLevels: nat)
    requires nbLevels >= 3
    ensures Plan(500, nbLevels, Lowest) == [3, 30, 300]
    ensures Plan(500, nbLevels, Highest) == [1, 15, 150]
    ensures Plan(500, nbLevels, Lowest) != Plan(500, nbLevels, Highest)
  {
    assert LowestFrom(3000, 500, nbLevels - 3) == [];
    assert LowestFrom(300, 500, nbLevels - 2) == [300] + LowestFrom(3000, 500, nbLevels - 3);
    assert LowestFrom(30, 500, nbLevels - 1) == [30] + LowestFrom(300, 500, nbLevels - 2);
    assert LowestFrom(3, 500, nbLevels) == [3] + LowestFrom(30, 500, nbLevels - 1);
    assert HighestFrom(0, nbLevels - 3) == [];
    assert HighestFrom(1, nbLevels - 2) == HighestFrom(0, nbLevels - 3) + [1];
    assert HighestFrom(15, nbLevels - 1) == HighestFrom(1, nbLevels - 2) + [15];
    assert HighestFrom(150, nbLevels) == HighestFrom(15, nbLevels - 1) + [150];
  }

  /**
   * The two-level example for a sequence of length 1000: `.Lowest` keeps the
   * two lowest levels, 3 and 30, and `.Highest` the two highest, 30 and 300.
   */
  lemma TwoLevelsOfThousand()
    ensures Plan(1000, 2, Lowest) == [3, 30]
    ensures Plan(1000, 2, Highest) == [30, 300]
  {
    assert LowestFrom(300, 1000, 0) == [];
    assert HighestFrom(3, 0) == [];
  }

  /** The `.Lowest` branch of the planning switch: a loop that appends. */
  method PlanLowest(sequenceLength: int, nbLevels: int) returns (patternLength: seq<int>)
    requires nbLevels >= 1
    ensures patternLength == LowestPlan(sequenceLength, nbLevels)
  {
    patternLength := [];
    var pl := 3;
    var round := 0;
    while round < nbLevels
      invariant 0 <= round <= nbLevels
      invariant patternLength + LowestFrom(pl, sequenceLength, nbLevels - round)
        == LowestPlan(sequenceLength, nbLevels)
    {
      if pl > sequenceLength {
        break;
      }
      assert LowestFrom(pl, sequenceLength, nbLevels - round)
        == [pl] + LowestFrom(pl * 10, sequenceLength, nbLevels - round - 1);
      patternLength := patternLength + [pl];
      pl := pl * 10;
      round := round + 1;
    }
  }

  /** The `.Highest` branch of the planning switch: a loop that inserts at the front. */
  method PlanHighest(sequenceLength: int, nbLevels: int) returns (patternLength: seq<int>)
    requires sequenceLength >= 0 && nbLevels >= 1
    ensures patternLength == HighestPlan(sequenceLength, nbLevels)
  {
    patternLength := [];
    var pl: nat := sequenceLength * 3 / 10;
    var round := 0;
    while round < nbLevels
      invariant 0 <= round <= nbLevels
      invariant HighestFrom(pl, nbLevels - round) + patternLength
        == HighestPlan(sequenceLength, nbLevels)
    {
      if pl == 0 {
        break;
      }
      assert HighestFrom(pl, nbLevels - round)
        == HighestFrom(pl / 10, nbLevels - round - 1) + [pl];
      patternLength := [pl] + patternLength;
      pl := pl / 10;
      round := round + 1;
    }
  }

  // ---------------------------------------------------------------------
  // Parameterisation of one level
  // ---------------------------------------------------------------------

  /**
   * The number of patterns and occurrences of the level of length `pl`.
   * `.OnePatternManyTimes`: one pattern, as many occurrences as fit in two
   * thirds of the sequence (L*2/3/pl). `.ManyPatternsTwice`: two occurrences,
   * as many patterns as fit three times their length in the sequence
   * (L/pl/3). The `if ... { break }` guards of main.swift leave only the switch,
   * so they change nothing and the values are returned as computed.
   */
  function Parameterize(sequenceLength: int, pl: int, levelType: LevelType): LevelParams
    requires sequenceLength >= 0 && pl >= 1
  {
    match levelType
    case OnePatternManyTimes => LevelParams(1, sequenceLength * 2 / 3 / pl)
    case ManyPatternsTwice => LevelParams(sequenceLength / pl / 3, 2)
  }

  /**
   * One pattern many times: one pattern, and the largest occurrence count
   * whose occurrences fit in two thirds of the sequence. Many patterns twice:
   * two occurrences, and the largest pattern count for which three times the
   * patterns' total length fits in the sequence.
   */
  lemma ParameterizeSpec(sequenceLength: int, pl: int, levelType: LevelType)
    requires sequenceLength >= 0 && pl >= 1
    ensures var p := Parameterize(sequenceLength, pl, levelType);
      levelType == OnePatternManyTimes ==>
        && p.nbPatterns == 1 && p.nbOccs >= 0
        && p.nbOccs * pl <= sequenceLength * 2 / 3 < (p.nbOccs + 1) * pl
    ensures var p := Parameterize(sequenceLength, pl, levelType);
      levelType == ManyPatternsTwice ==>
        && p.nbOccs == 2 && p.nbPatterns >= 0
        && p.nbPatterns * (3 * pl) <= sequenceLength < (p.nbPatterns + 1) * (3 * pl)
  {
    match levelType
    case OnePatternManyTimes =>
      DivBounds(sequenceLength * 2 / 3, pl);
    case ManyPatternsTwice =>
      ThirdOfQuotient(sequenceLength, pl);
  }

  lemma DivBounds(a: int, b: int)
    requires a >= 0 && b >= 1
    ensures 0 <= a / b && (a / b) * b <= a < (a / b + 1) * b
  {
  }

  lemma MulMono(x: int, y: int, c: int)
    requires x <= y && c >= 0
    ensures x * c <= y * c
  {
  }

  /** (a / b) / 3 is the largest q with q * (3 * b) <= a. */
  lemma ThirdOfQuotient(a: int, b: int)
    requires a >= 0 && b >= 1
    ensures var q := a / b / 3; 0 <= q && q * (3 * b) <= a < (q + 1) * (3 * b)
  {
    var m := a / b;
    var q := m / 3;
    DivBounds(a, b);
    DivBounds(m, 3);
    MulMono(q * 3, m, b);
    MulMono(m + 1, (q + 1) * 3, b);
    assert q * (3 * b) == (q * 3) * b;
    assert (q + 1) * (3 * b) == ((q + 1) * 3) * b;
  }

  /** The level runs `for i in 1...nbOccs` with nbOccs < 1, which traps. */
  predicate LevelTraps(p: LevelParams)
  {
    p.nbPatterns > 0 && p.nbOccs < 1
  }

  /**
   * A level traps exactly when it plants one pattern many times and its
   * length exceeds two thirds of the sequence.
   */
  lemma TrapsExactly(sequenceLength: int, pl: int, levelType: LevelType)
    requires sequenceLength >= 0 && pl >= 1
    ensures LevelTraps(Parameterize(sequenceLength, pl, levelType))
      <==> levelType == OnePatternManyTimes && pl > sequenceLength * 2 / 3
  {
    var p := Parameterize(sequenceLength, pl, levelType);
    ParameterizeSpec(sequenceLength, pl, levelType);
    if levelType == OnePatternManyTimes && p.nbOccs >= 1 {
      MulMono(1, p.nbOccs, pl);
    }
  }

  /** Every level of a `.Highest` plan has at least one occurrence per pattern. */
  lemma HighestNeverTraps(sequenceLength: int, nbLevels: nat, levelType: LevelType)
    requires sequenceLength >= 0
    ensures forall k :: 0 <= k < |Plan(sequenceLength, nbLevels, Highest)| ==>
      !LevelTraps(Parameterize(sequenceLength, Plan(sequenceLength, nbLevels, Highest)[k], levelType))
  {
    var r := Plan(sequenceLength, nbLevels, Highest);
    HighestPlanShape(sequenceLength, nbLevels);
    forall k | 0 <= k < |r|
      ensures !LevelTraps(Parameterize(sequenceLength, r[k], levelType))
    {
      TrapsExactly(sequenceLength, r[k], levelType);
    }
  }

  /**
   * The occurrences a level plants cover at most two thirds of the sequence
   * (counted with overlaps).
   */
  lemma LevelCoverage(sequenceLength: int, pl: int, levelType: LevelType)
    requires sequenceLength >= 0 && pl >= 1
    ensures var p := Parameterize(sequenceLength, pl, levelType);
      p.nbPatterns * p.nbOccs * pl <= sequenceLength * 2 / 3
  {
    var p := Parameterize(sequenceLength, pl, levelType);
    ParameterizeSpec(sequenceLength, pl, levelType);
    match levelType
    case OnePatternManyTimes =>
      assert p.nbPatterns * p.nbOccs * pl == p.nbOccs * pl;
    case ManyPatternsTwice =>
      var c := p.nbPatterns * (3 * pl);
      assert p.nbPatterns * p.nbOccs * pl * 3 == 2 * c;
  }
}
